=== FILE: README.md ===
# price-bot core in Dafny

A Dafny model of the logic in `bot.py` of the NEXA price bot. The bot is a
Telegram bot. On `/price` or `/p` it looks up the NEXA/USDT price and the
circulating supply through fallback chains of web APIs. It then replies with
a report escaped for Telegram's MarkdownV2.

The model covers:

- **The MarkdownV2 escaper** (`escape_markdown_v2`): one whole-string
  `str.replace` per reserved character, for 18 characters in order. It is
  proved equal to a per-character map: a reserved `c` becomes `\c`, and any
  other character is copied. From that come the length, the inverse
  (unescaping), the backslash before every reserved character, and that a
  second pass changes the text.
- **The response guards** of `get_cg_supply`, `get_cg_price` and
  `get_mexc_price`. Python's truthiness, `isinstance`, `in`, subscript,
  `int()` and `float()` are modelled over a decoded JSON value. They are
  proved to accept exactly the documented shape.
- **The explorer step** of `get_circ_supply`. `int(r.json())` is tried first.
  The trimmed text is tried only after a `ValueError` (bot.py:50). Any other
  exception, such as the `TypeError` of `int()` on a list, gives up on the
  explorer.
- **The fallback chains.** Supply goes explorer → CoinGecko →
  `MANUAL_CIRC_SUPPLY`. Price goes MEXC → CoinGecko → error text. The price
  is labelled with the literal string "MEXC" or "CoinGecko" (bot.py:113,118).
  Both chains are proved to be a generic "first success wins" combinator. They are also
  modelled as traces of the endpoints each invocation asks.
- **`get_nexa_price`**, which escapes the report once as its last step. When
  no price is found, the supply is never fetched, and the failure text is
  returned unescaped (bot.py:121).
- **The `/price` handler**, which sends that text with MarkdownV2 parsing.

Every HTTP request is an input `HttpReply`. It is either `Failed` (the request
or `raise_for_status()` raised) or the body text together with what
`.json()` decoded, which is `None` when the decoder raised. The rendered report
is an input function `render(quote, supply)`.

Modules: `Wrappers` (Option), `PyText` (`strip`, `int(str)`, `float(str)`),
`PyJson` (decoded JSON and the Python builtins over it), `Markdown` (the
escaper), `Sources` (single-source fetchers), `Fallback` (chains, report,
command reply).

## Model

| member | source | states |
|---|---|---|
| Markdown.EscapeMarkdownV2 | bot.py:101-106 | The replace loop over the 18 reserved characters gives the same string as escaping each character on its own. A reserved `c` becomes backslash + `c`, and any other character is copied. |
| Markdown.ReplaceEach | bot.py:104-105 | The replace loop, one whole-string `replace` per listed character in order. For a duplicate-free list without the backslash, it gives the same string as escaping every listed character on its own. |
| Markdown.ReplaceThenEscape | bot.py:104-105 | One loop step: replacing `c` by backslash + `c` and then escaping the characters still to come is escaping `c` together with them. This holds when neither `c` nor the backslash is among those to come. |
| Markdown.EscapeLength | bot.py:104-105 | Output length = input length + number of reserved characters in the input. |
| Markdown.EscapeEmpty | bot.py:101-106 | The empty string escapes to the empty string. |
| Markdown.UnescapeRecoversInput | bot.py:101-106 | Deleting each backslash that stands before a reserved character gives back the input. So every other character, `\` included, is copied unchanged and in order. |
| Markdown.ReservedAlwaysPreceded | bot.py:103-105 | Every reserved character in the output has a backslash right before it. |
| Markdown.EscapeTwiceDiffers | bot.py:147 | Escaping twice differs from escaping once whenever the text holds a reserved character. So the escape must run exactly once. |
| Markdown.EscapeIsMarkdownSafe | bot.py:101-106 | For input with no backslash, the output has no unescaped reserved character, so MarkdownV2 reads it as plain text. |
| PyText.TrimPadded | bot.py:54 | `strip()` removes exactly the whitespace around a word whose ends are not blank. |
| PyText.TrimLeavesPadding | bot.py:54 | Conversely, what `strip()` keeps is a piece of the input with only whitespace before and after it. |
| PyText.ParseIntLiteral | bot.py:54 | `int()` of a stripped string succeeds exactly on an optional sign followed by at least one ASCII digit. A `-` gives a result of at most 0, and otherwise the result is at least 0. |
| PyText.ParseShowInt | bot.py:54 | `int()` of `str(n)` with any surrounding whitespace is `n`. |
| PyText.FloatAgreesWithInt | bot.py:78 | On an integer literal, `float(s)` equals `int(s)`. |
| PyJson.IntIsTruncatedFloat | bot.py:31 | Whenever `int(v)` succeeds on a decoded value, `float(v)` succeeds too, except on an integer of magnitude 2^1024 - 2^970 or more, where it raises `OverflowError`. Where both succeed, `int(v)` is `float(v)` truncated toward zero. |
| Sources.LookupIsShape | bot.py:30-31 | Python evaluates `data and isinstance(data, list) and key in data[0]`, then `data[0][key]`. This yields a value exactly when the body is a non-empty list whose first element is an object holding `key`, and the value is that entry. |
| Sources.CgSupply | bot.py:22-35 | `get_cg_supply` returns a value exactly when the body is a non-empty list whose first element is an object holding `circulating_supply`, and `int()` accepts that entry. The value is `int()` of the entry. |
| Sources.CgPrice | bot.py:85-98 | `get_cg_price` returns a value exactly when the body is a non-empty list whose first element is an object holding `current_price`, and `float()` accepts that entry. The value is `float()` of the entry. |
| Sources.MexcPrice | bot.py:70-82 | `get_mexc_price` returns a value exactly when the body is an object with a `price` entry that `float()` accepts. The value is `float()` of the entry. |
| Sources.WrongShapesGiveNothing | bot.py:30-35 | The CoinGecko guards give `None` for JSON `null`, an empty list, a bare object, and a list whose first element is not an object. The MEXC guard gives `None` for `null` and for any list. All three give `None` after a failed request. |
| Sources.ExplorerPrefersJson | bot.py:47-49 | When `int()` accepts the decoded JSON, that value is the explorer supply, whatever the raw text says. |
| Sources.ExplorerReadsPlainText | bot.py:50-54 | A non-JSON body holding `str(n)` with surrounding whitespace yields `n`. |
| Sources.ExplorerSupply | bot.py:41-57 | The explorer step, by what `.json()` decoded. `null`, a list or an object makes `int()` raise `TypeError`, so there is no value and the text is not read. A bool, integer or float gives its `int()`. A string gives its `int()` if that succeeds; otherwise the `ValueError` leads to `int()` of the raw text. A body the decoder refused is read as `int()` of the raw text. A failed request gives no value. |
| Fallback.FirstSome | bot.py:59-67 | The "first success wins" combinator. It returns `None` exactly when every tier is `None`. Otherwise it returns the first tier that is not `None`. |
| Fallback.SupplyIsFirstSuccess | bot.py:38-67 | The supply is the first success of explorer, CoinGecko, `MANUAL_CIRC_SUPPLY`, and it is never absent. |
| Fallback.SupplyCases | bot.py:41-67 | The three supply outcomes. An explorer value wins. Otherwise a CoinGecko value is used, 0 included. Otherwise the constant is used. |
| Fallback.GetCircSupply | bot.py:40-63 | The explorer is always asked. CoinGecko is asked exactly when the explorer gave no value. |
| Fallback.PriceIsFirstSuccess | bot.py:112-118 | The price is the first success of MEXC (labelled "MEXC") and CoinGecko (labelled "CoinGecko"). It is absent exactly when both give `None`. |
| Fallback.SelectPrice | bot.py:112-118 | MEXC is always asked. CoinGecko is asked exactly when MEXC gave `None`. |
| Fallback.MexcZeroPriceIsUsed | bot.py:112-115 | MEXC's `{"price": "0"}` is a price of 0 labelled "MEXC", and CoinGecko is not asked. |
| Fallback.CoinGeckoZeroPriceIsUsed | bot.py:115-120 | After MEXC fails, CoinGecko's `current_price` of 0 is used as the price. |
| Fallback.GetNexaPrice | bot.py:109-147 | With no price, the reply is the error text and the only calls are MEXC then CoinGecko. With a price, the calls are the price calls followed by the supply calls. |
| Fallback.PriceFailureSkipsSupply | bot.py:120-123 | When both price sources fail, the result is exactly the error text starting with U+1F6A8, and the explorer is never asked. |
| Fallback.ReportEscapedOnce | bot.py:123-147 | With a price, the reply is `escape_markdown_v2` of the report rendered from the chosen quote and supply. Unescaping it gives that report back. |
| Fallback.CallOrder | bot.py:109-123 | Each invocation makes 2 to 4 requests, starting with MEXC. The explorer is asked exactly when a price was found. |
| Fallback.PriceErrorIsRefused | bot.py:120-121 | As written, the failure reply has a stray period: a `.` in text with no backslash, backquote or `(`. MarkdownV2 requires such a `.` to be escaped, so Telegram refuses the message. The reply is not plain MarkdownV2 text either. |
| Fallback.GetNexaPriceFixed | bot.py:109-147 | Corrected version: it makes the same requests, and every reply unescapes to the error text or the rendered report. |
| Fallback.FixedRepliesAreSafe | bot.py:147-153 | If the rendered report holds no backslash, every reply of the corrected version is valid plain MarkdownV2. |
| Fallback.PriceCommand | bot.py:150-153 | The `/price` handler replies with `get_nexa_price()`'s text in MarkdownV2 mode. With no price, that text has a stray period. If the report template holds no backslash, the text is plain MarkdownV2 exactly when a price was found. |
| Fallback.PriceCommandFixed | bot.py:150-153 | The handler over the corrected report function replies with that function's text in MarkdownV2 mode. If the report template holds no backslash, every reply is plain MarkdownV2 text and none has a stray period. |

## Left out

- HTTP requests, `raise_for_status()`, timeouts and JSON decoding are network I/O and library code. They are the `HttpReply` input. `Failed` stands for any exception raised before the body is read.
- JSON numbers are modelled as finite exact reals. Python's decoder also accepts `NaN` and `Infinity`. On those, `int()` raises `ValueError` or `OverflowError`, which is not modelled.
- PyText.ParseInt covers only an optional sign and ASCII digits. Python's `int()` also accepts underscores between digits and non-ASCII decimal digits.
- PyText.ParseFloat covers only plain decimal notation, with an exact real as the result. Exponents, `inf`/`nan`, underscores and binary rounding are not modelled.
- Market cap, per-million and per-billion prices, the trillions/millions scaling and the `:,.2f`, `.8f`, `.3f` formatting are floating-point arithmetic and formatting. The rendered report is the `render` input.
- Logging, `load_dotenv`/`os.getenv`, the bot token, `main` and the polling loop are configuration and framework glue. The handler is modelled as the reply text and the parse mode it is sent with. The send itself is not modelled.
- PyText.ParseShowInt: `int()` and `str()` are modelled without a digit limit. CPython 3.11 and later, and the security releases of 3.7 to 3.10, raise `ValueError` from `int(s)` and `str(n)` past 4300 digits. An explorer body of more than 4300 digits therefore gives no value, so the chain falls through to CoinGecko. Sources.ExplorerReadsPlainText holds only below that limit.
- PyText.FloatAgreesWithInt: `float()` of a decimal string is the exact value here. Python rounds to the nearest double, so `float("9007199254740993")` is `9007199254740992.0`, which differs from `int()` of the same string. For integers beyond 2^53 the lemma holds in the model only.
- Fallback.GetNexaPrice: `nexa_price * circ_supply` (bot.py:124) converts the supply to a float. It raises `OverflowError` for a supply of `PyJson.FLOAT_OVERFLOW` or more, and `get_nexa_price` does not catch it, so the handler sends nothing. The model's `render` always returns a text. So Fallback.ReportEscapedOnce, Fallback.PriceCommand and Fallback.PriceCommandFixed describe the reply only when that arithmetic does not raise.
- Markdown.EscapeIsMarkdownSafe: requires a backslash-free input. `escape_markdown_v2` does not escape `\`, so input `\_` becomes `\\_`, where MarkdownV2 reads an escaped backslash followed by a bare `_`. The report text never contains a backslash.
- PyJson.IntIsTruncatedFloat: `float()` of an integer below the overflow bound is the exact integer here. Python rounds integers beyond 2^53 to the nearest double, so there the truncation equation holds only in the model. Likewise `float()` of a very long digit string gives `inf` in Python, which the model does not represent.

## Findings

| source | as written | input that shows it | evidently intended | confidence | as-written member | corrected member |
|---|---|---|---|---|---|---|
| bot.py:120-121 | The total-failure text `🚨 Error: Unable to fetch price from MEXC or CoinGecko.` is returned unescaped. bot.py:153 sends it with `parse_mode='MarkdownV2'`. Its final `.` is reserved, so Telegram refuses to parse the message and the user gets no reply. | The MEXC and CoinGecko price requests fail, e.g. every `HttpReply` is `Failed` | The error text reaches the user, escaped like the report | high; not executed | Fallback.PriceErrorIsRefused | Fallback.FixedRepliesAreSafe |

`Fallback.PriceErrorIsRefused` is a lemma about the as-written `Fallback.GetNexaPrice`, and the as-written handler `Fallback.PriceCommand` sends that text. `Fallback.GetNexaPriceFixed` is the corrected definition, `Fallback.FixedRepliesAreSafe` proves the corrected property about it, and `Fallback.PriceCommandFixed` is the handler over the corrected function.

=== FILE: fallback.dfy ===
/** The fallback chains of bot.py: circulating supply (explorer, then
    CoinGecko, then a fixed constant) and price (MEXC, then CoinGecko, then an
    error message), and `get_nexa_price`, which joins them into the escaped
    report. Every upstream call is an input reply; each result also records
    which endpoints were asked, in order. */
module Fallback {
  import opened Wrappers
  import opened PyText
  import opened PyJson
  import opened Sources
  import opened Markdown

  /** The supply used when neither live source gives one (bot.py `MANUAL_CIRC_SUPPLY`). */
  const MANUAL_CIRC_SUPPLY: int := 8_000_000_000_000

  /** The text `get_nexa_price` returns when neither price source gives a
      price (bot.py:121), starting with U+1F6A8. */
  const PRICE_ERROR: string :=
    "\U{1F6A8} Error: " + "Unable to fetch " + "price from MEXC " + "or CoinGecko."

  /** The error text holds no backslash, backquote or opening parenthesis.
      The constant is written as four short literals because the verifier
      settles membership in each piece but not in one long literal. */
  lemma PriceErrorHasNoMarkup()
    ensures Backslash !in PRICE_ERROR && '`' !in PRICE_ERROR && '(' !in PRICE_ERROR
  {
    PriceErrorLacks(Backslash);
    PriceErrorLacks('`');
    PriceErrorLacks('(');
  }

  lemma PriceErrorLacks(c: char)
    requires c == Backslash || c == '`' || c == '('
    ensures c !in PRICE_ERROR
  {
    assert c !in "\U{1F6A8} Error: ";
    assert c !in "Unable to fetch ";
    assert c !in "price from MEXC ";
    assert c !in "or CoinGecko.";
  }

  const MEXC_LABEL: string := "MEXC"
  const COINGECKO_LABEL: string := "CoinGecko"

  /** The upstream endpoints the bot asks. */
  datatype Endpoint = Explorer | CoinGeckoMarkets | MexcTicker

  /** A value together with the endpoints asked, in order, to obtain it. */
  datatype Fetched<T> = Fetched(value: T, calls: seq<Endpoint>)

  /** A unit price and the label of the source it came from. */
  datatype Quote = Quote(price: real, source: string)

  /** The replies one invocation of `get_nexa_price` could receive, one per
      request it may send; the two CoinGecko requests are separate calls. */
  datatype Upstream = Upstream(mexc: HttpReply, cgPrice: HttpReply, explorer: HttpReply, cgSupply: HttpReply)

  /** The generic "first success wins" combinator over an ordered list of tiers. */
  function FirstSome<T>(tiers: seq<Option<T>>): (r: Option<T>)
    ensures r.None? <==> forall i :: 0 <= i < |tiers| ==> tiers[i].None?
    ensures r.Some? ==> exists i :: 0 <= i < |tiers| && tiers[i] == r && forall j :: 0 <= j < i ==> tiers[j].None?
    decreases |tiers|
  {
    if |tiers| == 0 then None
    else if tiers[0].Some? then tiers[0]
    else
      var r := FirstSome(tiers[1..]);
      assert r.Some? ==> exists i :: 1 <= i < |tiers| && tiers[i] == r && forall j :: 0 <= j < i ==> tiers[j].None? by {
        if r.Some? {
          var k :| 0 <= k < |tiers[1..]| && tiers[1..][k] == r && forall j :: 0 <= j < k ==> tiers[1..][j].None?;
          assert tiers[k + 1] == r;
          assert forall j :: 0 <= j < k + 1 ==> tiers[j].None? by {
            forall j | 0 <= j < k + 1
              ensures tiers[j].None?
            {
              if j > 0 {
                assert tiers[j] == tiers[1..][j - 1];
              }
            }
          }
        }
      }
      r
  }

  /** bot.py `get_circ_supply`: the explorer's value if it gives one, else
      CoinGecko's, else `MANUAL_CIRC_SUPPLY`. CoinGecko is asked only when the
      explorer gave nothing. */
  function GetCircSupply(explorer: HttpReply, coingecko: HttpReply): (r: Fetched<int>)
    ensures r.calls == if ExplorerSupply(explorer).Some? then [Explorer] else [Explorer, CoinGeckoMarkets]
  {
    match ExplorerSupply(explorer)
    case Some(n) => Fetched(n, [Explorer])
    case None =>
      match CgSupply(coingecko)
      case Some(n) => Fetched(n, [Explorer, CoinGeckoMarkets])
      case None => Fetched(MANUAL_CIRC_SUPPLY, [Explorer, CoinGeckoMarkets])
  }

  /** The supply is the first success of the chain explorer, CoinGecko,
      constant; as the constant always succeeds, the supply is never absent. */
  lemma {:induction false} SupplyIsFirstSuccess(explorer: HttpReply, coingecko: HttpReply)
    ensures FirstSome([ExplorerSupply(explorer), CgSupply(coingecko), Some(MANUAL_CIRC_SUPPLY)])
            == Some(GetCircSupply(explorer, coingecko).value)
  {
    var tiers := [ExplorerSupply(explorer), CgSupply(coingecko), Some(MANUAL_CIRC_SUPPLY)];
    if tiers[0].None? {
      assert FirstSome(tiers) == FirstSome(tiers[1..]);
      assert tiers[1..] == [CgSupply(coingecko), Some(MANUAL_CIRC_SUPPLY)];
      if tiers[1].None? {
        assert FirstSome(tiers[1..]) == FirstSome(tiers[1..][1..]);
        assert tiers[1..][1..] == [Some(MANUAL_CIRC_SUPPLY)];
      }
    }
  }

  /** The three supply cases, spelled out: explorer value; else CoinGecko
      value, a supply of 0 included; else the constant. */
  lemma SupplyCases(explorer: HttpReply, coingecko: HttpReply)
    ensures ExplorerSupply(explorer).Some? ==>
              GetCircSupply(explorer, coingecko).value == ExplorerSupply(explorer).value
    ensures ExplorerSupply(explorer).None? && CgSupply(coingecko).Some? ==>
              GetCircSupply(explorer, coingecko).value == CgSupply(coingecko).value
    ensures ExplorerSupply(explorer).None? && CgSupply(coingecko).None? ==>
              GetCircSupply(explorer, coingecko).value == MANUAL_CIRC_SUPPLY
  {
  }

  /** Attaches a source label to a price. */
  function Labelled(price: Option<real>, source: string): (r: Option<Quote>)
    ensures r.Some? <==> price.Some?
  {
    match price
    case Some(p) => Some(Quote(p, source))
    case None => None
  }

  /** The price step of bot.py `get_nexa_price`: MEXC's price labelled "MEXC";
      when MEXC gives `None`, CoinGecko is asked and its price, if any, is
      labelled "CoinGecko". The test is `is None`, so a price of 0 is kept. */
  function SelectPrice(mexc: HttpReply, coingecko: HttpReply): (r: Fetched<Option<Quote>>)
    ensures r.calls == if MexcPrice(mexc).Some? then [MexcTicker] else [MexcTicker, CoinGeckoMarkets]
  {
    match MexcPrice(mexc)
    case Some(p) => Fetched(Some(Quote(p, MEXC_LABEL)), [MexcTicker])
    case None => Fetched(Labelled(CgPrice(coingecko), COINGECKO_LABEL), [MexcTicker, CoinGeckoMarkets])
  }

  /** The price is the first success of the chain MEXC, CoinGecko, each with
      its own label; it is absent exactly when both give `None`. */
  lemma {:induction false} PriceIsFirstSuccess(mexc: HttpReply, coingecko: HttpReply)
    ensures SelectPrice(mexc, coingecko).value
            == FirstSome([Labelled(MexcPrice(mexc), MEXC_LABEL), Labelled(CgPrice(coingecko), COINGECKO_LABEL)])
    ensures SelectPrice(mexc, coingecko).value.None? <==> MexcPrice(mexc).None? && CgPrice(coingecko).None?
  {
    var tiers := [Labelled(MexcPrice(mexc), MEXC_LABEL), Labelled(CgPrice(coingecko), COINGECKO_LABEL)];
    assert tiers[1..] == [Labelled(CgPrice(coingecko), COINGECKO_LABEL)];
    assert tiers[1..][1..] == [];
  }

  /** A zero price is a price: the check is `is None`, not truthiness, so
      MEXC's `{"price": "0"}` is used and CoinGecko is not asked. */
  lemma MexcZeroPriceIsUsed(text: string, coingecko: HttpReply)
    ensures SelectPrice(Ok(text, Some(JObj(map["price" := JStr("0")]))), coingecko)
            == Fetched(Some(Quote(0.0, MEXC_LABEL)), [MexcTicker])
  {
    ParseFloatZero();
    var body := JObj(map["price" := JStr("0")]);
    assert Contains(body, "price") == Returns(true);
    assert FloatOf(JStr("0")) == Returns(0.0);
    assert MexcPrice(Ok(text, Some(body))) == Some(0.0);
  }

  /** Likewise, once MEXC gave nothing, CoinGecko's `current_price` of 0 is used. */
  lemma CoinGeckoZeroPriceIsUsed(text: string, mexc: HttpReply)
    requires MexcPrice(mexc).None?
    ensures SelectPrice(mexc, Ok(text, Some(JArr([JObj(map["current_price" := JInt(0)])]))))
            == Fetched(Some(Quote(0.0, COINGECKO_LABEL)), [MexcTicker, CoinGeckoMarkets])
  {
    var first := JObj(map["current_price" := JInt(0)]);
    assert Contains(first, "current_price") == Returns(true);
    assert CgPrice(Ok(text, Some(JArr([first])))) == Some(0.0);
  }

  /** bot.py `get_nexa_price`. `render` stands for the f-string report built
      from the quote and the supply (its float formatting is not modelled);
      the rendered text is escaped once, as the last step. When no price is
      found, the error text is returned as is and the supply is not fetched. */
  function GetNexaPrice(up: Upstream, render: (Quote, int) -> string): (r: Fetched<string>)
    ensures SelectPrice(up.mexc, up.cgPrice).value.None? ==> r == Fetched(PRICE_ERROR, [MexcTicker, CoinGeckoMarkets])
    ensures SelectPrice(up.mexc, up.cgPrice).value.Some? ==>
              r.calls == SelectPrice(up.mexc, up.cgPrice).calls + GetCircSupply(up.explorer, up.cgSupply).calls
  {
    var price := SelectPrice(up.mexc, up.cgPrice);
    match price.value
    case None => Fetched(PRICE_ERROR, price.calls)
    case Some(quote) =>
      var supply := GetCircSupply(up.explorer, up.cgSupply);
      Fetched(EscapeMarkdownV2(render(quote, supply.value)), price.calls + supply.calls)
  }

  /** With no price, the reply is the fixed error text, the explorer is never
      asked and CoinGecko is asked once, so the supply inputs cannot matter. */
  lemma PriceFailureSkipsSupply(up: Upstream, render: (Quote, int) -> string)
    requires MexcPrice(up.mexc).None? && CgPrice(up.cgPrice).None?
    ensures GetNexaPrice(up, render) == Fetched(PRICE_ERROR, [MexcTicker, CoinGeckoMarkets])
    ensures Explorer !in GetNexaPrice(up, render).calls
  {
  }

  /** With a price, the reply is the rendered report escaped exactly once:
      unescaping it gives back the rendered text, built from the selected
      quote and the supply chain's value. */
  lemma ReportEscapedOnce(up: Upstream, render: (Quote, int) -> string)
    requires MexcPrice(up.mexc).Some? || CgPrice(up.cgPrice).Some?
    ensures var quote := SelectPrice(up.mexc, up.cgPrice).value.value;
            var supply := GetCircSupply(up.explorer, up.cgSupply).value;
            && Unescape(GetNexaPrice(up, render).value) == render(quote, supply)
            && GetNexaPrice(up, render).value == EscapeMarkdownV2(render(quote, supply))
  {
    var quote := SelectPrice(up.mexc, up.cgPrice).value.value;
    var supply := GetCircSupply(up.explorer, up.cgSupply).value;
    UnescapeRecoversInput(render(quote, supply));
  }

  /** Every combination of tier outcomes for one invocation, as endpoint
      traces: at most four requests, MEXC always first, the explorer only
      after a price was found. */
  lemma CallOrder(up: Upstream, render: (Quote, int) -> string)
    ensures 2 <= |GetNexaPrice(up, render).calls| <= 4 && GetNexaPrice(up, render).calls[0] == MexcTicker
    ensures Explorer in GetNexaPrice(up, render).calls <==> SelectPrice(up.mexc, up.cgPrice).value.Some?
  {
  }

  /** A reason Telegram's MarkdownV2 parser refuses a whole message: `.`
      opens and closes no entity, so it must be escaped everywhere except
      inside a code entity (between backquotes) and the `(...)` target of a
      link. Text with no backslash, no backquote and no `(` has neither, so
      any `.` in it is unescaped where escaping is required. */
  predicate StrayPeriod(s: string)
  {
    && Backslash !in s && '`' !in s && '(' !in s
    && exists i :: 0 <= i < |s| && s[i] == '.'
  }

  /** A message with a stray period is not plain MarkdownV2 text either. */
  lemma StrayPeriodIsUnsafe(s: string)
    ensures StrayPeriod(s) ==> !MarkdownSafe(s)
  {
    if StrayPeriod(s) {
      var i :| 0 <= i < |s| && s[i] == '.';
      assert IsReserved('.');
      UnescapedReservedIsUnsafe(s, i);
    }
  }

  /** As written, the failure reply has such a stray period, so the message
      sent with MarkdownV2 parsing is refused; it is not plain MarkdownV2
      text either. */
  lemma PriceErrorIsRefused(up: Upstream, render: (Quote, int) -> string)
    requires MexcPrice(up.mexc).None? && CgPrice(up.cgPrice).None?
    ensures StrayPeriod(GetNexaPrice(up, render).value)
    ensures !MarkdownSafe(GetNexaPrice(up, render).value)
  {
    assert PRICE_ERROR[|PRICE_ERROR| - 1] == '.';
    PriceErrorHasNoMarkup();
    StrayPeriodIsUnsafe(PRICE_ERROR);
  }

  /** `get_nexa_price` with the error text escaped like the report, so that
      every reply it gives is accepted by MarkdownV2. */
  function GetNexaPriceFixed(up: Upstream, render: (Quote, int) -> string): (r: Fetched<string>)
    ensures r.calls == GetNexaPrice(up, render).calls
    ensures Unescape(r.value) == (match SelectPrice(up.mexc, up.cgPrice).value
                                  case None => PRICE_ERROR
                                  case Some(q) => render(q, GetCircSupply(up.explorer, up.cgSupply).value))
  {
    var price := SelectPrice(up.mexc, up.cgPrice);
    match price.value
    case None =>
      UnescapeRecoversInput(PRICE_ERROR);
      Fetched(EscapeMarkdownV2(PRICE_ERROR), price.calls)
    case Some(quote) =>
      var supply := GetCircSupply(up.explorer, up.cgSupply);
      UnescapeRecoversInput(render(quote, supply.value));
      Fetched(EscapeMarkdownV2(render(quote, supply.value)), price.calls + supply.calls)
  }

  /** Every reply of the corrected function parses as plain MarkdownV2 text,
      given that the rendered report holds no backslash (its text is a fixed
      template, a source label and formatted numbers). */
  lemma FixedRepliesAreSafe(up: Upstream, render: (Quote, int) -> string)
    requires forall q, n :: Backslash !in render(q, n)
    ensures MarkdownSafe(GetNexaPriceFixed(up, render).value)
  {
    match SelectPrice(up.mexc, up.cgPrice).value
    case None =>
      PriceErrorHasNoMarkup();
      EscapeIsMarkdownSafe(PRICE_ERROR);
    case Some(q) =>
      EscapeIsMarkdownSafe(render(q, GetCircSupply(up.explorer, up.cgSupply).value));
  }

  /** A chat reply: its text and the parse mode it is sent with. */
  datatype ChatReply = ChatReply(text: string, parseMode: string)

  /** The `/price` and `/p` command handler as written: it replies with
      `get_nexa_price()`'s text in MarkdownV2 mode. Given a report template
      without backslashes, the reply is plain MarkdownV2 text exactly when a
      price was found; the failure text has a stray period. */
  function PriceCommand(up: Upstream, render: (Quote, int) -> string): (r: ChatReply)
    ensures r.text == GetNexaPrice(up, render).value && r.parseMode == "MarkdownV2"
    ensures SelectPrice(up.mexc, up.cgPrice).value.None? ==> StrayPeriod(r.text)
    ensures (forall q, n :: Backslash !in render(q, n)) ==>
              (MarkdownSafe(r.text) <==> SelectPrice(up.mexc, up.cgPrice).value.Some?)
  {
    var text := GetNexaPrice(up, render).value;
    match SelectPrice(up.mexc, up.cgPrice).value
    case None =>
      PriceErrorIsRefused(up, render);
      ChatReply(text, "MarkdownV2")
    case Some(q) =>
      ReportIsPlain(up, render);
      ChatReply(text, "MarkdownV2")
  }

  /** With a price and a report without backslashes, the as-written reply is
      plain MarkdownV2 text. */
  lemma ReportIsPlain(up: Upstream, render: (Quote, int) -> string)
    requires SelectPrice(up.mexc, up.cgPrice).value.Some?
    ensures (forall q, n :: Backslash !in render(q, n)) ==> MarkdownSafe(GetNexaPrice(up, render).value)
  {
    var q := SelectPrice(up.mexc, up.cgPrice).value.value;
    var report := render(q, GetCircSupply(up.explorer, up.cgSupply).value);
    assert GetNexaPrice(up, render).value == EscapeMarkdownV2(report);
    if Backslash !in report {
      EscapeIsMarkdownSafe(report);
    }
  }

  /** The handler over the corrected report function: every reply it sends
      in MarkdownV2 mode is plain MarkdownV2 text, and it never sends a
      stray period. */
  function PriceCommandFixed(up: Upstream, render: (Quote, int) -> string): (r: ChatReply)
    requires forall q, n :: Backslash !in render(q, n)
    ensures r.text == GetNexaPriceFixed(up, render).value && r.parseMode == "MarkdownV2"
    ensures MarkdownSafe(r.text)
    ensures !StrayPeriod(r.text)
  {
    var text := GetNexaPriceFixed(up, render).value;
    FixedRepliesAreSafe(up, render);
    StrayPeriodIsUnsafe(text);
    ChatReply(text, "MarkdownV2")
  }
}

=== FILE: markdown.dfy ===
/** The Telegram MarkdownV2 escaper of bot.py (`escape_markdown_v2`): one
    whole-string `str.replace` per reserved character, in the order the bot
    lists them, proved equal to escaping every character independently. */
module Markdown {

  const Backslash: char := '\\'

  /** The characters MarkdownV2 reserves, in the order bot.py replaces them. */
  const EscapeChars: seq<char> :=
    ['_', '*', '[', ']', '(', ')', '~', '`', '>', '#', '+', '-', '=', '|', '{', '}', '.', '!']

  predicate IsReserved(c: char)
  {
    c in EscapeChars
  }

  predicate Distinct(s: seq<char>)
  {
    forall i, j :: 0 <= i < j < |s| ==> s[i] != s[j]
  }

  /** Python's `text.replace(target, replacement)` for a one-character target. */
  function Replace(text: string, target: char, replacement: string): (r: string)
    ensures target !in text ==> r == text
    decreases |text|
  {
    if |text| == 0 then []
    else
      assert text == [text[0]] + text[1..];
      (if text[0] == target then replacement else [text[0]]) + Replace(text[1..], target, replacement)
  }

  /** The loop of `escape_markdown_v2`: for each character `c` of `chars`, in
      order, replace every `c` of the whole string by a backslash and `c`. */
  function ReplaceEach(text: string, chars: seq<char>): (r: string)
    ensures Distinct(chars) && Backslash !in chars ==> r == EscapeWith(text, chars)
    decreases |chars|
  {
    if |chars| == 0 then
      EscapeWithNothing(text);
      text
    else
      var c := chars[0];
      var r := ReplaceEach(Replace(text, c, [Backslash, c]), chars[1..]);
      DistinctTail(chars);
      assert chars == [c] + chars[1..];
      ReplaceThenEscape(text, c, chars[1..]);
      r
  }

  /** Per-character escaping of exactly the characters listed in `chars`. */
  function EscapeWith(text: string, chars: seq<char>): string
    decreases |text|
  {
    if |text| == 0 then []
    else (if text[0] in chars then [Backslash, text[0]] else [text[0]]) + EscapeWith(text[1..], chars)
  }

  /** The reference escaper: each reserved character becomes a backslash
      followed by that character; every other character is copied. */
  function EscapeEach(text: string): string
  {
    EscapeWith(text, EscapeChars)
  }

  /** Number of reserved characters in `text`. */
  function ReservedCount(text: string): nat
    decreases |text|
  {
    if |text| == 0 then 0
    else (if IsReserved(text[0]) then 1 else 0) + ReservedCount(text[1..])
  }

  lemma {:induction false} EscapeWithNothing(text: string)
    ensures EscapeWith(text, []) == text
    decreases |text|
  {
    if |text| > 0 {
      EscapeWithNothing(text[1..]);
      assert text == [text[0]] + text[1..];
    }
  }

  /** Dropping the first character of a duplicate-free list leaves it
      duplicate-free, and the dropped character is not in the rest. */
  lemma DistinctTail(chars: seq<char>)
    requires |chars| > 0
    ensures Distinct(chars) ==> Distinct(chars[1..]) && chars[0] !in chars[1..]
  {
    if Distinct(chars) {
      forall k | 0 <= k < |chars[1..]|
        ensures chars[1..][k] != chars[0]
      {
        assert chars[1..][k] == chars[k + 1];
      }
    }
  }

  lemma {:induction false} EscapeWithSplits(a: string, b: string, chars: seq<char>)
    ensures EscapeWith(a + b, chars) == EscapeWith(a, chars) + EscapeWith(b, chars)
    decreases |a|
  {
    if |a| == 0 {
      assert a + b == b;
    } else {
      assert (a + b)[0] == a[0];
      assert (a + b)[1..] == a[1..] + b;
      EscapeWithSplits(a[1..], b, chars);
    }
  }

  /** One step of the loop: replacing `c` by a backslash and `c`, then
      escaping the characters still to come, is escaping `c` together with
      them, provided neither `c` nor the backslash is among those to come. */
  lemma {:induction false} ReplaceThenEscape(text: string, c: char, rest: seq<char>)
    ensures c !in rest && Backslash !in rest && c != Backslash ==>
              EscapeWith(Replace(text, c, [Backslash, c]), rest) == EscapeWith(text, [c] + rest)
    decreases |text|
  {
    if c !in rest && Backslash !in rest && c != Backslash && |text| > 0 {
      var x := text[0];
      var rep := [Backslash, c];
      var head := if x == c then rep else [x];
      assert Replace(text, c, rep) == head + Replace(text[1..], c, rep);
      EscapeWithSplits(head, Replace(text[1..], c, rep), rest);
      ReplaceThenEscape(text[1..], c, rest);
      if x == c {
        assert EscapeWith(rep, rest) == rep by {
          assert rep[1..] == [c];
          assert [c][1..] == [];
        }
      } else {
        assert EscapeWith([x], rest) == (if x in rest then [Backslash, x] else [x]) by {
          assert [x][1..] == [];
        }
      }
    }
  }

  /** bot.py's `escape_markdown_v2`: the replace loop over the 18 reserved
      characters, which escapes each character independently of the others. */
  function EscapeMarkdownV2(text: string): (r: string)
    ensures r == EscapeEach(text)
  {
    assert Distinct(EscapeChars) && Backslash !in EscapeChars;
    ReplaceEach(text, EscapeChars)
  }

  /** Escaping only inserts one backslash before each reserved character. */
  lemma {:induction false} EscapeLength(text: string)
    ensures |EscapeEach(text)| == |text| + ReservedCount(text)
    decreases |text|
  {
    if |text| > 0 {
      EscapeLength(text[1..]);
    }
  }

  lemma EscapeEmpty()
    ensures EscapeMarkdownV2("") == ""
  {
  }

  /** No escaped text starts with a reserved character. */
  lemma EscapeHeadNotReserved(text: string)
    requires |EscapeEach(text)| > 0
    ensures !IsReserved(EscapeEach(text)[0])
  {
  }

  /** Inverse of the escaper: drop each backslash that stands before a reserved character. */
  function Unescape(s: string): string
    decreases |s|
  {
    if |s| == 0 then []
    else if |s| >= 2 && s[0] == Backslash && IsReserved(s[1]) then [s[1]] + Unescape(s[2..])
    else [s[0]] + Unescape(s[1..])
  }

  /** Deleting every backslash inserted before a reserved character recovers
      the input, so every other character, the backslash included, is copied
      unchanged and in order. */
  lemma {:induction false} UnescapeRecoversInput(text: string)
    ensures Unescape(EscapeEach(text)) == text
    decreases |text|
  {
    if |text| > 0 {
      var s := EscapeEach(text);
      var rest := EscapeEach(text[1..]);
      UnescapeRecoversInput(text[1..]);
      assert Unescape(rest) == text[1..];
      if IsReserved(text[0]) {
        assert s == [Backslash, text[0]] + rest;
        assert s[2..] == rest;
        assert Unescape(s) == [text[0]] + Unescape(rest);
      } else {
        assert s == [text[0]] + rest;
        assert s[1..] == rest;
        assert !(|s| >= 2 && s[0] == Backslash && IsReserved(s[1])) by {
          if |s| >= 2 {
            assert s[1] == rest[0];
            EscapeHeadNotReserved(text[1..]);
          }
        }
        assert Unescape(s) == [text[0]] + Unescape(rest);
      }
      assert text == [text[0]] + text[1..];
    }
  }

  /** Every reserved character of the output has a backslash right before it. */
  lemma {:induction false} ReservedAlwaysPreceded(text: string)
    ensures forall i :: 0 <= i < |EscapeEach(text)| && IsReserved(EscapeEach(text)[i])
              ==> i > 0 && EscapeEach(text)[i - 1] == Backslash
    decreases |text|
  {
    if |text| > 0 {
      var s := EscapeEach(text);
      var rest := EscapeEach(text[1..]);
      ReservedAlwaysPreceded(text[1..]);
      var head := if IsReserved(text[0]) then [Backslash, text[0]] else [text[0]];
      assert s == head + rest;
      assert !IsReserved(Backslash);
      forall i | 0 <= i < |s| && IsReserved(s[i])
        ensures i > 0 && s[i - 1] == Backslash
      {
        if i < |head| {
          assert s[i] == head[i];
          if i == 1 {
            assert s[0] == head[0] == Backslash;
          }
        } else {
          assert s[i] == rest[i - |head|];
          if i - |head| > 0 {
            assert s[i - 1] == rest[i - |head| - 1];
          }
        }
      }
    }
  }

  lemma {:induction false} ReservedCountSplits(a: string, b: string)
    ensures ReservedCount(a + b) == ReservedCount(a) + ReservedCount(b)
    decreases |a|
  {
    if |a| == 0 {
      assert a + b == b;
    } else {
      assert (a + b)[0] == a[0];
      assert (a + b)[1..] == a[1..] + b;
      ReservedCountSplits(a[1..], b);
    }
  }

  /** Escaping keeps every reserved character, so the count of them is unchanged. */
  lemma {:induction false} EscapeKeepsReservedCount(text: string)
    ensures ReservedCount(EscapeEach(text)) == ReservedCount(text)
    decreases |text|
  {
    if |text| > 0 {
      var head := if IsReserved(text[0]) then [Backslash, text[0]] else [text[0]];
      assert EscapeEach(text) == head + EscapeEach(text[1..]);
      ReservedCountSplits(head, EscapeEach(text[1..]));
      EscapeKeepsReservedCount(text[1..]);
      assert ReservedCount(head) == if IsReserved(text[0]) then 1 else 0 by {
        if IsReserved(text[0]) {
          assert head[1..] == [text[0]];
          assert ReservedCount([text[0]]) == 1 by { assert [text[0]][1..] == []; }
        } else {
          assert head[1..] == [];
        }
      }
    }
  }

  lemma {:induction false} ReservedCountPositive(text: string, i: nat)
    requires i < |text| && IsReserved(text[i])
    ensures ReservedCount(text) > 0
    decreases i
  {
    if i > 0 {
      ReservedCountPositive(text[1..], i - 1);
    }
  }

  /** Escaping is not idempotent: a second pass over text holding a reserved
      character escapes it again, so the escaper must run exactly once. */
  lemma EscapeTwiceDiffers(text: string, i: nat)
    requires i < |text| && IsReserved(text[i])
    ensures EscapeMarkdownV2(EscapeMarkdownV2(text)) != EscapeMarkdownV2(text)
  {
    var once := EscapeMarkdownV2(text);
    ReservedCountPositive(text, i);
    EscapeKeepsReservedCount(text);
    EscapeLength(text);
    EscapeLength(once);
  }

  /** Text Telegram's MarkdownV2 parser reads as plain characters: a backslash
      escapes the character after it (any code from 1 to 126), and no reserved
      character stands unescaped. */
  predicate MarkdownSafe(s: string)
    decreases |s|
  {
    || |s| == 0
    || (s[0] == Backslash && |s| >= 2 && 1 <= s[1] as int <= 126 && MarkdownSafe(s[2..]))
    || (s[0] != Backslash && !IsReserved(s[0]) && MarkdownSafe(s[1..]))
  }

  /** The escaper's output parses as plain text when the input holds no
      backslash (a backslash of the input is copied, not escaped). */
  lemma {:induction false} EscapeIsMarkdownSafe(text: string)
    requires Backslash !in text
    ensures MarkdownSafe(EscapeEach(text))
    decreases |text|
  {
    if |text| > 0 {
      var s := EscapeEach(text);
      var rest := EscapeEach(text[1..]);
      assert text[0] != Backslash;
      assert Backslash !in text[1..];
      EscapeIsMarkdownSafe(text[1..]);
      assert MarkdownSafe(rest);
      if IsReserved(text[0]) {
        assert s == [Backslash, text[0]] + rest;
        assert s[2..] == rest;
        assert 1 <= text[0] as int <= 126;
        assert s[0] == Backslash && |s| >= 2 && 1 <= s[1] as int <= 126 && MarkdownSafe(s[2..]);
      } else {
        assert s == [text[0]] + rest;
        assert s[1..] == rest;
        assert s[0] != Backslash && !IsReserved(s[0]) && MarkdownSafe(s[1..]);
      }
    }
  }

  /** Text with no backslash at all and some reserved character is not plain
      MarkdownV2 text. */
  lemma {:induction false} UnescapedReservedIsUnsafe(s: string, i: nat)
    requires Backslash !in s
    requires i < |s| && IsReserved(s[i])
    ensures !MarkdownSafe(s)
    decreases i
  {
    if i > 0 {
      assert Backslash !in s[1..];
      UnescapedReservedIsUnsafe(s[1..], i - 1);
    }
  }
}

=== FILE: pyjson.dfy ===
/** Decoded JSON values as Python holds them after `response.json()`, and the
    Python builtins the bot applies to them: truthiness, `in`, `[key]`,
    `int()` and `float()`. */
module PyJson {
  import opened Wrappers
  import opened PyText

  /** A decoded JSON value: JSON integers become Python `int`, other numbers
      `float` (kept here as an exact, finite real). */
  datatype Json =
    | JNull
    | JBool(b: bool)
    | JInt(i: int)
    | JFloat(f: real)
    | JStr(s: string)
    | JArr(items: seq<Json>)
    | JObj(fields: map<string, Json>)

  /** The outcome of one Python builtin call: a value, or the exception it raises. */
  datatype PyResult<+T> =
    | Returns(value: T)
    | RaisesValueError
    | RaisesTypeError
    | RaisesKeyError
    | RaisesOverflowError
  {

    /** What an enclosing `except Exception: return None` makes of the outcome. */
    function ToOption(): Option<T>
    {
      match this
      case Returns(v) => Some(v)
      case _ => None
    }
  }

  /** Python truthiness: `None`, `False`, zero and empty containers are false. */
  predicate Truthy(j: Json)
  {
    match j
    case JNull => false
    case JBool(b) => b
    case JInt(i) => i != 0
    case JFloat(f) => f != 0.0
    case JStr(s) => |s| > 0
    case JArr(items) => |items| > 0
    case JObj(fields) => |fields| > 0
  }

  /** Whether `needle` occurs as a contiguous piece of `s`. */
  predicate IsInfix(needle: string, s: string)
    decreases |s|
  {
    |needle| <= |s| && (s[..|needle|] == needle || (|s| > 0 && IsInfix(needle, s[1..])))
  }

  /** Python's `key in j` for a string `key`: a key test on a dict, a substring
      test on a str, an element test on a list, and `TypeError` otherwise. */
  function Contains(j: Json, key: string): PyResult<bool>
  {
    match j
    case JObj(fields) => Returns(key in fields)
    case JStr(s) => Returns(IsInfix(key, s))
    case JArr(items) => Returns(JStr(key) in items)
    case _ => RaisesTypeError
  }

  /** Python's `j[key]` for a string `key`: a dict lookup (`KeyError` when the
      key is absent), and `TypeError` on anything else; a str or list only takes
      integer indices. */
  function GetItem(j: Json, key: string): (r: PyResult<Json>)
    ensures r.Returns? <==> j.JObj? && key in j.fields
  {
    match j
    case JObj(fields) => if key in fields then Returns(fields[key]) else RaisesKeyError
    case _ => RaisesTypeError
  }

  /** `int(f)` for a float: truncation toward zero. */
  function TruncateTowardZero(f: real): (r: int)
    ensures f >= 0.0 ==> r as real <= f < r as real + 1.0
    ensures f < 0.0 ==> r as real - 1.0 < f <= r as real
  {
    if f >= 0.0 then f.Floor else -((-f).Floor)
  }

  /** Python's `int(j)`. */
  function IntOf(j: Json): (r: PyResult<int>)
    ensures r.Returns? && j.JStr? ==> ParseInt(j.s) == Some(r.value)
    ensures j.JNull? || j.JArr? || j.JObj? ==> r == RaisesTypeError
  {
    match j
    case JBool(b) => Returns(if b then 1 else 0)
    case JInt(i) => Returns(i)
    case JFloat(f) => Returns(TruncateTowardZero(f))
    case JStr(s) =>
      (match ParseInt(s)
       case Some(n) => Returns(n)
       case None => RaisesValueError)
    case _ => RaisesTypeError
  }

  /** 2^1024 - 2^970: the least integer that `float()` rounds past the largest
      finite double, so that it raises `OverflowError`. */
  const FLOAT_OVERFLOW: int := 0xfffffffffffffc00_0000000000000000_0000000000000000_0000000000000000_0000000000000000_0000000000000000_0000000000000000_0000000000000000_0000000000000000_0000000000000000_0000000000000000_0000000000000000_0000000000000000_0000000000000000_0000000000000000_0000000000000000

  /** Whether `float()` of the integer `i` raises `OverflowError`. */
  predicate TooLargeForFloat(i: int)
  {
    i >= FLOAT_OVERFLOW || i <= -FLOAT_OVERFLOW
  }

  /** Python's `float(j)`. */
  function FloatOf(j: Json): (r: PyResult<real>)
    ensures r.Returns? && j.JStr? ==> ParseFloat(j.s) == Some(r.value)
    ensures j.JNull? || j.JArr? || j.JObj? ==> r == RaisesTypeError
    ensures r == RaisesOverflowError <==> j.JInt? && TooLargeForFloat(j.i)
  {
    match j
    case JBool(b) => Returns(if b then 1.0 else 0.0)
    case JInt(i) => if TooLargeForFloat(i) then RaisesOverflowError else Returns(i as real)
    case JFloat(f) => Returns(f)
    case JStr(s) =>
      (match ParseFloat(s)
       case Some(v) => Returns(v)
       case None => RaisesValueError)
    case _ => RaisesTypeError
  }

  /** Every value `int()` accepts, `float()` accepts too, except an integer
      too large for a double; where both succeed, `int()` is `float()`
      truncated toward zero. */
  lemma IntIsTruncatedFloat(j: Json)
    requires IntOf(j).Returns?
    ensures FloatOf(j).Returns? <==> !(j.JInt? && TooLargeForFloat(j.i))
    ensures FloatOf(j).Returns? ==> IntOf(j).value == TruncateTowardZero(FloatOf(j).value)
  {
    if j.JStr? {
      FloatAgreesWithInt(j.s);
    }
  }
}

=== FILE: pytext.dfy ===
/** The pieces of Python's text handling the bot relies on: `str.strip()`,
    `int(str)` and `float(str)`, restricted to ASCII decimal notation. */
module PyText {
  import opened Wrappers

  /** The characters Python's `str.isspace()` accepts; `str.strip()`,
      `int()` and `float()` drop them at both ends of a string. */
  predicate IsSpace(c: char)
  {
    var n := c as int;
    || (0x09 <= n <= 0x0D) || (0x1C <= n <= 0x20)
    || n == 0x85 || n == 0xA0 || n == 0x1680
    || (0x2000 <= n <= 0x200A)
    || n == 0x2028 || n == 0x2029 || n == 0x202F || n == 0x205F || n == 0x3000
  }

  predicate AllSpace(s: string)
  {
    forall i :: 0 <= i < |s| ==> IsSpace(s[i])
  }

  /** `s.lstrip()`: the suffix of `s` left after dropping leading whitespace. */
  function TrimStart(s: string): (r: string)
    ensures |r| <= |s| && r == s[|s| - |r|..]
    ensures forall i :: 0 <= i < |s| - |r| ==> IsSpace(s[i])
    ensures |r| > 0 ==> !IsSpace(r[0])
    decreases |s|
  {
    if |s| > 0 && IsSpace(s[0]) then TrimStart(s[1..]) else s
  }

  /** `s.rstrip()`: the prefix of `s` left after dropping trailing whitespace. */
  function TrimEnd(s: string): (r: string)
    ensures |r| <= |s| && r == s[..|r|]
    ensures forall i :: |r| <= i < |s| ==> IsSpace(s[i])
    ensures |r| > 0 ==> !IsSpace(r[|r| - 1])
    decreases |s|
  {
    if |s| > 0 && IsSpace(s[|s| - 1]) then TrimEnd(s[..|s| - 1]) else s
  }

  /** `s.strip()`. */
  function Trim(s: string): (r: string)
    ensures |r| <= |s|
    ensures |r| > 0 ==> !IsSpace(r[0]) && !IsSpace(r[|r| - 1])
  {
    TrimEnd(TrimStart(s))
  }

  /** What `strip()` keeps is a piece of the input with only whitespace
      around it; with `TrimPadded`, `strip()` removes exactly that whitespace. */
  lemma TrimLeavesPadding(s: string)
    ensures exists pre, post :: s == pre + Trim(s) + post && AllSpace(pre) && AllSpace(post)
  {
    var t := TrimStart(s);
    TrimIsSlice(s, t, TrimEnd(t));
  }

  /** Dropping whitespace from the front of `s`, giving `t`, and then from the
      back of `t`, giving `r`, leaves `r` with whitespace around it in `s`. */
  lemma TrimIsSlice(s: string, t: string, r: string)
    requires |t| <= |s| && t == s[|s| - |t|..] && forall i :: 0 <= i < |s| - |t| ==> IsSpace(s[i])
    requires |r| <= |t| && r == t[..|r|] && forall i :: |r| <= i < |t| ==> IsSpace(t[i])
    ensures exists pre, post :: s == pre + r + post && AllSpace(pre) && AllSpace(post)
  {
    var a := |s| - |t|;
    var b := a + |r|;
    assert r == s[a..b];
    forall i | b <= i < |s|
      ensures IsSpace(s[i])
    {
      assert s[i] == t[i - a];
    }
    PaddingSplits(s, a, b);
  }

  /** A string whose characters before `a` and from `b` on are whitespace is
      its middle piece with whitespace around it. */
  lemma PaddingSplits(s: string, a: nat, b: nat)
    requires a <= b <= |s|
    requires forall i :: 0 <= i < a ==> IsSpace(s[i])
    requires forall i :: b <= i < |s| ==> IsSpace(s[i])
    ensures exists pre, post :: s == pre + s[a..b] + post && AllSpace(pre) && AllSpace(post)
  {
    var pre, post := s[..a], s[b..];
    assert AllSpace(pre) && AllSpace(post);
    assert s == pre + s[a..b] + post;
  }

  lemma {:induction false} TrimStartSkipsSpace(ws: string, x: string)
    requires AllSpace(ws)
    ensures TrimStart(ws + x) == TrimStart(x)
    decreases |ws|
  {
    if |ws| > 0 {
      assert (ws + x)[0] == ws[0];
      assert (ws + x)[1..] == ws[1..] + x;
      TrimStartSkipsSpace(ws[1..], x);
    } else {
      assert ws + x == x;
    }
  }

  lemma {:induction false} TrimEndSkipsSpace(x: string, ws: string)
    requires AllSpace(ws)
    ensures TrimEnd(x + ws) == TrimEnd(x)
    decreases |ws|
  {
    if |ws| > 0 {
      var n := |x + ws|;
      assert (x + ws)[n - 1] == ws[|ws| - 1];
      assert (x + ws)[..n - 1] == x + ws[..|ws| - 1];
      TrimEndSkipsSpace(x, ws[..|ws| - 1]);
    } else {
      assert x + ws == x;
    }
  }

  /** Whitespace around a word with non-blank ends is exactly what `strip()` removes. */
  lemma TrimPadded(pre: string, x: string, post: string)
    requires AllSpace(pre) && AllSpace(post)
    requires |x| > 0 && !IsSpace(x[0]) && !IsSpace(x[|x| - 1])
    ensures Trim(pre + x + post) == x
  {
    assert pre + x + post == pre + (x + post);
    TrimStartSkipsSpace(pre, x + post);
    assert (x + post)[0] == x[0];
    assert TrimStart(pre + x + post) == x + post;
    TrimEndSkipsSpace(x, post);
  }

  /** Stripping twice is stripping once. */
  lemma TrimIdempotent(s: string)
    ensures Trim(Trim(s)) == Trim(s)
  {
    var t := Trim(s);
    if |t| > 0 {
      assert TrimStart(t) == t;
      assert TrimEnd(t) == t;
    }
  }

  predicate IsDigit(c: char)
  {
    '0' <= c <= '9'
  }

  predicate AllDigits(s: string)
  {
    forall i :: 0 <= i < |s| ==> IsDigit(s[i])
  }

  /** The number written by a string of ASCII decimal digits (0 for the empty string). */
  function DigitsValue(s: string): nat
    requires AllDigits(s)
    decreases |s|
  {
    if |s| == 0 then 0
    else DigitsValue(s[..|s| - 1]) * 10 + (s[|s| - 1] as int - '0' as int)
  }

  function Pow10(n: nat): (r: nat)
    ensures r >= 1
  {
    if n == 0 then 1 else 10 * Pow10(n - 1)
  }

  /** Decimal digits of `n` without leading zeros, as `str(n)` writes them. */
  function ShowNat(n: nat): (r: string)
    ensures |r| > 0 && AllDigits(r)
    ensures DigitsValue(r) == n
    decreases n
  {
    var last := [('0' as int + n % 10) as char];
    if n < 10 then last
    else
      var r := ShowNat(n / 10) + last;
      assert r[..|r| - 1] == ShowNat(n / 10);
      r
  }

  /** `str(n)` for an integer. */
  function ShowInt(n: int): string
  {
    if n < 0 then "-" + ShowNat(-n) else ShowNat(n)
  }

  /** The grammar `int()` accepts here: an optional sign and at least one ASCII digit. */
  predicate IsIntLiteral(t: string)
  {
    if |t| > 0 && (t[0] == '+' || t[0] == '-') then |t| > 1 && AllDigits(t[1..])
    else |t| > 0 && AllDigits(t)
  }

  /** `int()` of an already stripped string: `None` where Python raises `ValueError`. */
  function ParseIntLiteral(t: string): (r: Option<int>)
    ensures r.Some? <==> IsIntLiteral(t)
    ensures r.Some? && t[0] == '-' ==> r.value <= 0
    ensures r.Some? && t[0] != '-' ==> r.value >= 0
  {
    if |t| > 0 && (t[0] == '+' || t[0] == '-') then
      if |t| > 1 && AllDigits(t[1..]) then
        var v: int := DigitsValue(t[1..]);
        Some(if t[0] == '-' then -v else v)
      else None
    else if |t| > 0 && AllDigits(t) then Some(DigitsValue(t))
    else None
  }

  /** Python's `int(s)`, which ignores surrounding whitespace. */
  function ParseInt(s: string): Option<int>
  {
    ParseIntLiteral(Trim(s))
  }

  lemma ShowIntIsTrimmed(n: int)
    ensures |ShowInt(n)| > 0 && !IsSpace(ShowInt(n)[0]) && !IsSpace(ShowInt(n)[|ShowInt(n)| - 1])
  {
    var x := ShowInt(n);
    var d := ShowNat(if n < 0 then -n else n);
    if n < 0 {
      assert x[0] == '-' && x[|x| - 1] == d[|d| - 1];
      assert IsDigit(d[|d| - 1]);
    } else {
      assert IsDigit(d[0]) && IsDigit(d[|d| - 1]);
    }
  }

  /** `int(str(n)) == n`. */
  lemma ParseLiteralShowInt(n: int)
    ensures ParseIntLiteral(ShowInt(n)) == Some(n)
  {
    var x := ShowInt(n);
    if n < 0 {
      assert x[1..] == ShowNat(-n);
    } else {
      assert IsDigit(x[0]);
    }
  }

  /** `int()` reads back what `str()` writes, whatever whitespace surrounds it. */
  lemma ParseShowInt(n: int, pre: string, post: string)
    requires AllSpace(pre) && AllSpace(post)
    ensures ParseInt(pre + ShowInt(n) + post) == Some(n)
  {
    ShowIntIsTrimmed(n);
    TrimPadded(pre, ShowInt(n), post);
    ParseLiteralShowInt(n);
  }

  /** Index of the first `c` in `s`, or `|s|` when there is none. */
  function IndexOf(s: string, c: char): (i: nat)
    ensures i <= |s|
    ensures i < |s| ==> s[i] == c
    ensures forall j :: 0 <= j < i ==> s[j] != c
    decreases |s|
  {
    if |s| == 0 then 0
    else if s[0] == c then 0
    else 1 + IndexOf(s[1..], c)
  }

  /** Unsigned decimal notation `digits [. digits]` with at least one digit;
      Python accepts `"1."` and `".5"` alike. */
  function ParseUnsignedDecimal(u: string): (r: Option<real>)
    ensures r.Some? ==> r.value >= 0.0
  {
    var dot := IndexOf(u, '.');
    var whole := u[..dot];
    var frac := if dot < |u| then u[dot + 1..] else [];
    if AllDigits(whole) && AllDigits(frac) && |whole| + |frac| > 0 then
      Some(DigitsValue(whole) as real + DigitsValue(frac) as real / Pow10(|frac|) as real)
    else None
  }

  /** `float()` of an already stripped string in plain decimal notation:
      `None` where Python raises `ValueError`. */
  function ParseFloatLiteral(t: string): (r: Option<real>)
    ensures r.Some? ==> |t| > 0
    ensures r.Some? && r.value < 0.0 ==> t[0] == '-'
  {
    var signed := |t| > 0 && (t[0] == '+' || t[0] == '-');
    var u := if signed then t[1..] else t;
    match ParseUnsignedDecimal(u)
    case None => None
    case Some(v) => Some(if signed && t[0] == '-' then -v else v)
  }

  /** Python's `float(s)`, which ignores surrounding whitespace. */
  function ParseFloat(s: string): Option<real>
  {
    ParseFloatLiteral(Trim(s))
  }

  /** On an integer literal, `float()` and `int()` agree: `float(s) == int(s)`. */
  lemma FloatAgreesWithInt(s: string)
    requires ParseInt(s).Some?
    ensures ParseFloat(s) == Some(ParseInt(s).value as real)
  {
    FloatLiteralAgreesWithInt(Trim(s));
  }

  lemma FloatLiteralAgreesWithInt(t: string)
    requires ParseIntLiteral(t).Some?
    ensures ParseFloatLiteral(t) == Some(ParseIntLiteral(t).value as real)
  {
    var signed := |t| > 0 && (t[0] == '+' || t[0] == '-');
    var u := if signed then t[1..] else t;
    DecimalOfDigits(u);
  }

  /** `float("0") == 0.0`. */
  lemma ParseFloatZero()
    ensures ParseFloat("0") == Some(0.0)
  {
    assert TrimStart("0") == "0";
    assert TrimEnd("0") == "0";
    DecimalOfDigits("0");
  }

  lemma DecimalOfDigits(u: string)
    requires |u| > 0 && AllDigits(u)
    ensures ParseUnsignedDecimal(u) == Some(DigitsValue(u) as real)
  {
    var dot := IndexOf(u, '.');
    assert dot == |u|;
    assert u[..dot] == u;
    var frac: string := [];
    assert DigitsValue(frac) == 0 && Pow10(|frac|) == 1;
    assert DigitsValue(frac) as real / Pow10(|frac|) as real == 0.0;
  }
}

=== FILE: sources.dfy ===
/** The four single-source fetchers of bot.py, each reduced to what it makes
    of one HTTP reply: `get_circ_supply`'s explorer step, `get_cg_supply`,
    `get_mexc_price` and `get_cg_price`. Every exception they catch becomes
    `None`. */
module Sources {
  import opened Wrappers
  import opened PyText
  import opened PyJson

  /** One `requests.get(...)` followed by `raise_for_status()`: `Failed` when
      either raised (connection error, timeout, non-success status); otherwise
      the body text and what `response.json()` decoded from it, `None` when the
      decoder raised. */
  datatype HttpReply = Failed | Ok(text: string, json: Option<Json>)

  /** The decoded body, when the request succeeded and the body was JSON. */
  function Body(reply: HttpReply): Option<Json>
  {
    if reply.Ok? then reply.json else None
  }

  /** The shape the CoinGecko markets endpoint promises: a non-empty JSON list
      whose first element is an object holding `key`; the value under `key`. */
  function MarketField(reply: HttpReply, key: string): Option<Json>
  {
    match Body(reply)
    case Some(JArr(items)) =>
      if |items| > 0 && items[0].JObj? && key in items[0].fields
      then Some(items[0].fields[key]) else None
    case _ => None
  }

  /** The CoinGecko guard and subscript as Python evaluates them:
      `data and isinstance(data, list) and key in data[0]`, then `data[0][key]`;
      `None` when the guard is false or either step raises. */
  function MarketLookup(reply: HttpReply, key: string): Option<Json>
  {
    match Body(reply)
    case None => None
    case Some(data) =>
      if !Truthy(data) || !data.JArr? then None
      else if Contains(data.items[0], key) == Returns(true) then GetItem(data.items[0], key).ToOption()
      else None
  }

  /** bot.py `get_cg_supply`: the first market's `circulating_supply`, read
      with `int()`. A value comes back exactly when the reply has the
      promised shape and `int()` accepts the entry found there. */
  function CgSupply(reply: HttpReply): (r: Option<int>)
    ensures r.Some? <==> MarketField(reply, "circulating_supply").Some?
                         && IntOf(MarketField(reply, "circulating_supply").value).Returns?
    ensures r.Some? ==> r.value == IntOf(MarketField(reply, "circulating_supply").value).value
  {
    LookupIsShape(reply, "circulating_supply");
    match MarketLookup(reply, "circulating_supply")
    case Some(v) => IntOf(v).ToOption()
    case None => None
  }

  /** bot.py `get_cg_price`: the first market's `current_price`, read with
      `float()`. A value comes back exactly when the reply has the promised
      shape and `float()` accepts the entry found there. */
  function CgPrice(reply: HttpReply): (r: Option<real>)
    ensures r.Some? <==> MarketField(reply, "current_price").Some?
                         && FloatOf(MarketField(reply, "current_price").value).Returns?
    ensures r.Some? ==> r.value == FloatOf(MarketField(reply, "current_price").value).value
  {
    LookupIsShape(reply, "current_price");
    match MarketLookup(reply, "current_price")
    case Some(v) => FloatOf(v).ToOption()
    case None => None
  }

  /** bot.py `get_mexc_price`: `float(data["price"])` when the body is an
      object with a `price` entry. A value comes back exactly when the body
      is such an object and `float()` accepts the entry. */
  function MexcPrice(reply: HttpReply): (r: Option<real>)
    ensures r.Some? <==> && Body(reply).Some? && Body(reply).value.JObj?
                         && "price" in Body(reply).value.fields
                         && FloatOf(Body(reply).value.fields["price"]).Returns?
    ensures r.Some? ==> r.value == FloatOf(Body(reply).value.fields["price"]).value
  {
    match Body(reply)
    case Some(data) =>
      if data.JObj? && Contains(data, "price") == Returns(true) then
        (match GetItem(data, "price")
         case Returns(v) => FloatOf(v).ToOption()
         case _ => None)
      else None
    case None => None
  }

  /** Python's truthiness, `isinstance`, `in` and subscript steps together
      accept exactly the promised shape: a first element that is a str (where
      `in` is a substring test) or a list passes `in` but fails at the
      subscript, and any other non-object fails at `in`. */
  lemma {:induction false} LookupIsShape(reply: HttpReply, key: string)
    ensures MarketLookup(reply, key) == MarketField(reply, key)
  {
    match Body(reply)
    case None =>
    case Some(data) =>
      if Truthy(data) && data.JArr? {
        var first := data.items[0];
        if first.JObj? && key in first.fields {
          assert Contains(first, key) == Returns(true);
        } else {
          assert !GetItem(first, key).Returns?;
        }
      }
  }

  /** Shapes other than the promised ones are turned away. The CoinGecko
      guards give no value for `null`, an empty list, a bare object or a list
      whose first element is not an object; the MEXC guard gives none for
      `null` or any list. No guard gives a value after a failed request. */
  lemma WrongShapesGiveNothing(text: string, key: string, first: Json, fields: map<string, Json>)
    requires !first.JObj?
    ensures CgSupply(Ok(text, Some(JArr([])))).None? && CgPrice(Ok(text, Some(JArr([])))).None?
    ensures CgSupply(Ok(text, Some(JObj(fields)))).None? && CgPrice(Ok(text, Some(JObj(fields)))).None?
    ensures CgSupply(Ok(text, Some(JArr([first])))).None? && CgPrice(Ok(text, Some(JArr([first])))).None?
    ensures CgSupply(Ok(text, Some(JNull))).None? && CgPrice(Ok(text, Some(JNull))).None?
    ensures MexcPrice(Ok(text, Some(JNull))).None? && MexcPrice(Ok(text, Some(JArr([])))).None?
    ensures MexcPrice(Ok(text, Some(JArr([first])))).None? && MexcPrice(Ok(text, Some(JArr([JObj(fields)])))).None?
    ensures CgSupply(Failed).None? && CgPrice(Failed).None? && MexcPrice(Failed).None?
  {
  }

  /** The explorer step of bot.py `get_circ_supply`. `int(r.json())` is tried
      first; only a `ValueError` (the body is not JSON, or is a JSON string
      `int()` refuses) moves on to `int(r.text.strip())`; any other exception,
      such as `TypeError` from `int()` of a list, object or `null`, or a failed
      text parse, gives up on the explorer. */
  function ExplorerSupply(reply: HttpReply): (r: Option<int>)
    ensures reply.Failed? ==> r.None?
    ensures reply.Ok? && reply.json.Some? && reply.json.value == JNull ==> r.None?
    ensures reply.Ok? && reply.json.Some? && (reply.json.value.JArr? || reply.json.value.JObj?) ==> r.None?
    ensures reply.Ok? && reply.json.Some? && reply.json.value.JBool? ==> r == Some(if reply.json.value.b then 1 else 0)
    ensures reply.Ok? && reply.json.Some? && reply.json.value.JInt? ==> r == Some(reply.json.value.i)
    ensures reply.Ok? && reply.json.Some? && reply.json.value.JFloat? ==> r == Some(TruncateTowardZero(reply.json.value.f))
    ensures reply.Ok? && reply.json.Some? && reply.json.value.JStr? ==>
              r == if ParseInt(reply.json.value.s).Some? then ParseInt(reply.json.value.s) else ParseInt(reply.text)
    ensures reply.Ok? && reply.json.None? ==> r == ParseInt(reply.text)
  {
    match reply
    case Failed => None
    case Ok(text, json) =>
      var asJson := if json.None? then RaisesValueError else IntOf(json.value);
      match asJson
      case Returns(n) => Some(n)
      case RaisesValueError =>
        TrimIdempotent(text);
        ParseInt(Trim(text))
      case _ => None
  }

  /** The JSON reading wins whenever `int()` accepts the decoded value,
      whatever the raw text says. */
  lemma ExplorerPrefersJson(text: string, j: Json)
    requires IntOf(j).Returns?
    ensures ExplorerSupply(Ok(text, Some(j))) == Some(IntOf(j).value)
  {
  }

  /** A plain-text body of digits, which the decoder rejects, is read as an
      integer whatever whitespace surrounds it. A real decoder rejects such a
      body only when the surrounding whitespace holds a character JSON does
      not count as whitespace (a vertical tab, a form feed, U+001C to U+001F,
      U+0085 or U+00A0, say); otherwise it decodes the number, which
      `ExplorerPrefersJson` covers. */
  lemma ExplorerReadsPlainText(n: int, pre: string, post: string)
    requires AllSpace(pre) && AllSpace(post)
    ensures ExplorerSupply(Ok(pre + ShowInt(n) + post, None)) == Some(n)
  {
    ParseShowInt(n, pre, post);
  }
}

=== FILE: wrappers.dfy ===
/** Option, the "value or nothing" shape shared by every fetcher of the bot.
    Python's `None` return of a fetcher is `None` here; a value is `Some`. */
module Wrappers {

  datatype Option<+T> = None | Some(value: T)
}
